=== FILE: README.md ===
# 3D position visualizer: client reconciliation core in Dafny

This project models the client-side logic of the 3D position visualizer, which shows field
units (firefighters, drones) on a map. It covers four pieces, each written as pure functions
over immutable data:

- **Overlay client** (`public/index.js`):
  - the `device-data` handler, which upserts telemetry into the id → position table and
    moves the map centre;
  - `getColorFromText`, which gives a unit a fixed palette colour or the `hslToHex` colour
    of a hue derived from a 31-multiplier rolling hash whose shift wraps to int32;
  - the Start and Stop prompts, which turn operator input into `start` and `stop` commands.
- **Cesium viewer** (`src/MapViewer.tsx`):
  - the colour-tag → Cesium colour mapping;
  - the selection effect, which recentres the camera on the selected unit;
  - the find-or-create pass over the units, which gives each unit a model, a box and a
    label entity;
  - the centre following the last unit when nothing is selected;
  - the keyboard velocity controls.
- **Biometrics panel** (`src/Biometrics.tsx`): the colour-tag → `rgba(...)` swatch, the
  per-unit entries, and the `Unknown` fallbacks.
- **Data model** (`src/IUnit.ts`): the `UnitColor` enum and the unit, biometrics and
  position records.

Layout, one module per file:

| file | module | models |
|---|---|---|
| `wrappers.dfy` | `Wrappers` | `Option` |
| `js.dfy` | `Js` | JavaScript numbers and values, truthiness, `?.`, property keys, `ToInt32`, `<<`, truncating `%`, `trim`, `split`, `toLowerCase`, `String(n)` |
| `unit_model.dfy` | `UnitModel` | `src/IUnit.ts` |
| `color_hash.dfy` | `ColorHash` | `getColorFromText` and its call site |
| `device_data.dfy` | `DeviceData` | the `device-data` handler and the position table |
| `commands.dfy` | `Commands` | the Start and Stop prompt parsing |
| `unit_colors.dfy` | `UnitColors` | `getCesiumMaterialFromUnitColor`, `unitColorToRgba` |
| `map_viewer.dfy` | `MapViewer` | the selection and units effects of the viewer |
| `key_controls.dfy` | `KeyControls` | the keypress and keyup velocity handlers |
| `biometrics_panel.dfy` | `BiometricsPanel` | the biometrics panel entries |

Modelling choices:

- A JavaScript number is `NaN`, one of the two infinities, or a finite value held as an exact
  `real`.
- A socket payload is a JSON-like `Js.Value`.
- `hslToHex` and `Math.round` are computed over exact reals (`ColorHash.Channel`).
- Two foreign conversions are kept as uninterpreted constructors, so they are equal only
  when their arguments are equal:
  - `parseFloat` is `Commands.ParseFloat(text)`;
  - `Cesium.Cartesian3.fromDegrees` is `MapViewer.FromDegrees(lon, lat, height)`.
- A unit's colour tag is the number it holds at run time. It may name no `UnitColor`
  member, and both colour mappings then take their `default:` branch.
- A render handle is the index of its entity in the viewer's entity list.
- Each React effect body is a single step from explicit inputs to outputs.
- Socket emits are output values (`Commands.Command`). Prompts are `Option<string>`
  inputs, where `None` means the operator cancelled.

Behaviour of the code worth knowing, which the model follows:

- Telemetry acceptance only tests that `Position.x`, `y` and `z` are truthy (`public/index.js:124`).
  So a coordinate of `0` is rejected. `ID`, `Orientation` and `Confidence` are never checked, and no
  reject reason is produced.
- The palette is keyed on `unit-N` and `unit-unit-N` without trimming, and uses the hex
  constants of `public/index.js:150-160`. `unit1` and ` unit-2 ` are hashed like any other
  text.
- Selection is by position in the unit list, not by id.
- `getColorFromText` passes saturation `0.95` and lightness `0.35` to `hslToHex`, which
  divides both by 100. Every channel then rounds to 1, so every text outside the palette
  gets the same near-black `0x010101`, whatever its hash.

## Model

| member | source | states |
|---|---|---|
| `Js.ToInt32` | public/index.js:162 | the result is a 32-bit signed integer congruent to the input modulo 2^32 (the conversion `<<` applies to its operand) |
| `Js.ShiftLeft5` | public/index.js:162 | `acc << 5` is an int32 congruent to `32 * acc` modulo 2^32 |
| `Js.Rem` | public/index.js:164 | JavaScript `%`: the remainder lies strictly between `-d` and `d`, has the sign of the dividend, and completes the truncated division `a == d * Quot(a, d) + r` |
| `Js.Trim` | public/index.js:81 | `trim()` returns the infix of the input that sits between a white-space prefix and a white-space suffix, neither starting nor ending with white space; it is empty exactly when the input is all white space |
| `Js.TrimIdempotent` | public/index.js:90 | trimming an already trimmed id changes nothing |
| `Js.Split` | public/index.js:76 | `split(",")` gives at least one field, no field contains the separator, and joining the fields with the separator gives the input back |
| `Js.SplitJoin` | public/index.js:76 | splitting the join of separator-free fields gives those fields back, so the split is the unique such decomposition |
| `Js.SplitLength` | public/index.js:77 | the number of fields is the number of commas plus one |
| `Js.ToLower` | src/MapViewer.tsx:50 | `toLowerCase()` keeps the length, leaves no capital letter A–Z, and changes a character only by lowering a capital |
| `Js.ToLowerLetter` | src/MapViewer.tsx:50-65 | a key lower-cases to a given small letter exactly when it is that letter or its capital |
| `Js.ToLowerIdempotent` | src/MapViewer.tsx:50 | lower-casing twice is lower-casing once |
| `Js.NatToString` | src/Biometrics.tsx:36 | `String(idx)` is a non-empty string of decimal digits without a leading zero whose value is `idx` (so different indices give different keys) |
| `UnitModel.EnumValue` | src/IUnit.ts:1-8 | Red=1 … Default=6: every member's value lies in 1..6 and maps back to the member |
| `UnitModel.FromEnumValue` | src/IUnit.ts:1-8 | a number names a member exactly when it lies in 1..6 |
| `UnitModel.ColorOf` | src/IUnit.ts:1-8 | a run-time tag names a member exactly when it equals that member's number, and otherwise names none |
| `UnitModel.EnumValuesDistinct` | src/IUnit.ts:1-8 | the six members have six distinct values, and every value 1..6 names the member with that value |
| `ColorHash.PaletteSlot` | public/index.js:150-160 | a text selects a palette slot exactly when it is one of the ten spellings `unit-N`/`unit-unit-N` (N = 1..5), and the slot is that N |
| `ColorHash.CodeUnit` | public/index.js:161-162 | `charCodeAt(0)` of a spread element is the code point itself below U+10000, otherwise a high surrogate |
| `ColorHash.CodeUnitIsHighSurrogate` | public/index.js:161-162 | that high surrogate is the one UTF-16 uses to encode the code point |
| `ColorHash.ReduceSnoc` | public/index.js:161-163 | the `reduce` is a left fold: hashing `s + [c]` is one more step applied to the hash of `s` |
| `ColorHash.StringHashSnoc` | public/index.js:161-163 | the hash starts from 0 and extends by one step per character |
| `ColorHash.HashStepBound` | public/index.js:162 | one step `code + ((acc << 5) - acc)` moves the accumulator by at most 2^31 + 2^16 in magnitude |
| `ColorHash.ReduceBound` | public/index.js:161-163 | folding `n` characters moves the accumulator by at most `n * 2^32` |
| `ColorHash.HashIsExact` | public/index.js:161-163 | for ids shorter than 2^21 characters, every intermediate value of the fold is an exactly representable integer, so the integer model is what JavaScript computes |
| `ColorHash.ChannelIsOne` | public/index.js:138-147 | with saturation 0.95 and lightness 0.35, each `hslToHex` channel rounds to 1 for every hue |
| `ColorHash.HashedColor` | public/index.js:138-147 | `parseInt(hslToHex(hue, 0.95, 0.35), 16)` is `0x010101` for every hue |
| `ColorHash.GetColorFromText` | public/index.js:149-165 | the result is a palette colour exactly for the ten palette spellings, and then the colour of the slot the text names; every other text gets `0x010101` |
| `ColorHash.HueOfHash` | public/index.js:164 | the hue is `hash % 360` as JavaScript computes it: within (-360, 360), with the sign of the hash, and congruent to it modulo 360 |
| `ColorHash.UnitIdColor` | public/index.js:258 | the `|| 0xffff00` fallback at the call site is never taken: the drawn colour is `getColorFromText` of `unit-<id>` and never yellow |
| `ColorHash.PrefixedIdsShareColor` | public/index.js:149-160 | with the `unit-` prefix added at the call site (line 258), ids `N` and `unit-N` get the same fixed colour for N = 1..5 |
| `ColorHash.PaletteDistinct` | public/index.js:150-160 | the five palette constants are pairwise different |
| `ColorHash.HashedNeverPalette` | public/index.js:149-165 | a hashed text never gets the colour of a palette text |
| `ColorHash.HashedTextsAlike` | public/index.js:161-164 | any two texts outside the palette get the same colour |
| `DeviceData.OnDeviceData` | public/index.js:117-136 | a rejected message leaves the table and the centre unchanged; an accepted one sets the entry for `String(ID)` to exactly `{x, y, z}` with nothing merged, adds no other key, keeps every other entry, and centres the map on `{x, y}` |
| `DeviceData.AcceptedIff` | public/index.js:118-124 | a message is accepted if and only if `Position.x`, `y` and `z` are all truthy; a missing Position, or a `0`, NaN or undefined `x`, rejects it |
| `DeviceData.IdNotChecked` | public/index.js:121-124 | changing `ID` never changes whether a message is accepted |
| `DeviceData.OnDeviceDataIdempotent` | public/index.js:125-132 | handling the same message twice gives the same table and centre as handling it once |
| `DeviceData.ReplayCenter` | public/index.js:130-132 | after a stream of messages the centre is `{lat, lng}` of the last accepted message, or the initial centre when none was accepted |
| `DeviceData.ReplayEntry` | public/index.js:125-129 | after a stream, each key's entry is the position of the last accepted message with that key; keys no accepted message carried keep their entry or stay absent |
| `DeviceData.FromInitialState` | public/index.js:105-136 | starting from an empty table and the centre configured at line 36, the table holds exactly the keys of accepted messages, and the centre stays put until a message is accepted |
| `Commands.CoordinateField` | public/index.js:78-80 | a coordinate is `parseFloat` of the trimmed field, or of `"0"` when the field is blank |
| `Commands.IdField` | public/index.js:81 | the id is the trimmed field, or `no_id` when the field is blank; it is never empty and never has surrounding white space |
| `Commands.OnStart` | public/index.js:74-87 | Start emits if and only if the prompt was answered and its input has at least four comma-separated fields; it then emits the first three fields as coordinates and the trimmed fourth as the id; otherwise it raises the alert `Input is not valid` and emits nothing |
| `Commands.StartNeedsThreeCommas` | public/index.js:76-77 | Start emits if and only if the input has at least three commas |
| `Commands.ExtraFieldsIgnored` | public/index.js:77-82 | two inputs that agree on their first four fields give the same outcome |
| `Commands.StartRoundTrip` | public/index.js:76-82 | four comma-free fields joined by commas come back as exactly those coordinates and that id |
| `Commands.OnStop` | public/index.js:88-92 | Stop always emits; the id is the trimmed input, or `no_id` when the prompt was cancelled or the input is blank |
| `UnitColors.CesiumMaterial` | src/MapViewer.tsx:13-28 | Red, Green, Blue, Purple and Orange map to the like-named Cesium colour; grey comes out exactly for Default and for a number that names no member; alpha is always 0.5 |
| `UnitColors.CesiumMaterialInjective` | src/MapViewer.tsx:13-28 | different members give different Cesium colours |
| `UnitColors.UnlistedTagIsDefault` | src/MapViewer.tsx:25-26 | a number that names no member is drawn like Default, in the Cesium colour and in the swatch |
| `UnitColors.UnitColorToRgba` | src/Biometrics.tsx:13-28 | every swatch is an `rgba(` string ending in alpha `1.0`, and it is white exactly for Default and for a number that names no member |
| `UnitColors.RgbaInjective` | src/Biometrics.tsx:13-28 | the six members give six distinct swatches |
| `MapViewer.PositionDefaults` | src/MapViewer.tsx:103-105 | a missing position gives (0, 0, 0); a truthy coordinate is used as stored; a falsy coordinate becomes 0.0; no coordinate is NaN |
| `MapViewer.ElementAt` | src/MapViewer.tsx:101 | `units[idx]` finds an element exactly when the index is an integer within bounds, and it is the element at that index |
| `MapViewer.OnSelectionChanged` | src/MapViewer.tsx:97-116 | the centre moves to the selected unit's position when the index is an integer in `0..length-1`, and stays unchanged otherwise |
| `MapViewer.NoRecentreOutOfRange` | src/MapViewer.tsx:100-102 | a missing, NaN, infinite, negative, fractional or too-large index leaves the centre unchanged |
| `MapViewer.EntityPlacement` | src/MapViewer.tsx:190-217 | the box sits 0.8 and the label 2.0 above the unit's height at the same longitude and latitude, and the label reads `Unit <id>` |
| `MapViewer.EnsureHandles` | src/MapViewer.tsx:174-218 | one iteration appends exactly one entity per missing handle, keeps every existing handle, points each new handle at one of the entities it appended, built from the unit, has every appended entity referred to by a new handle, and leaves the unit with all three handles and otherwise unchanged |
| `MapViewer.TotalMissing` | src/MapViewer.tsx:175-218 | a unit list lacks at most three handles per unit |
| `MapViewer.ReconcileAll` | src/MapViewer.tsx:155-222 | the loop keeps the units in order and length, appends as many entities as there were missing handles (counting each list element as its own unit) and never touches existing entities, and gives every unit all three handles with its data unchanged; each unit's new handles refer to the block of entities appended for it, right after the blocks of the units before it, and every entity of its block is referred to by one of them |
| `MapViewer.ReconcileComplete` | src/MapViewer.tsx:175-206 | units that already have all handles pass through the loop untouched and no entity is added |
| `MapViewer.ReconcileIdempotent` | src/MapViewer.tsx:155-218 | a second run over the first run's output adds no entity and changes no unit |
| `MapViewer.OnUnitsChanged` | src/MapViewer.tsx:148-222 | without a viewer, one is created and nothing else changes; with one, the loop is run, and when `selectedUnitIdx` is -1 or undefined and units exist, the centre ends at the last unit's position (otherwise it is unchanged) |
| `KeyControls.OnKeyPress` | src/MapViewer.tsx:46-69 | with a viewer, d/a set X to ±0.05, w/s set Z to ±0.1, and r/f set Y to ±0.05; any other key, or no viewer, changes nothing |
| `KeyControls.OnKeyUp` | src/MapViewer.tsx:70-93 | with a viewer, releasing d/a zeroes X, r/f zeroes Y, and w/s zeroes Z; anything else changes nothing |
| `KeyControls.KeyTouchesOneAxis` | src/MapViewer.tsx:45-94 | a control key changes only its own axis on press and on release, and a release after a press leaves that axis at zero |
| `KeyControls.CaseInsensitive` | src/MapViewer.tsx:50-89 | keys that lower-case alike act alike |
| `KeyControls.ControlKeyNames` | src/MapViewer.tsx:50-89 | a handler acts on `key` as on a control letter exactly when `key` is that letter in either case |
| `KeyControls.DuplicateListenersAgree` | src/MapViewer.tsx:279-282 | the listeners are registered again on every clock tick, but `n >= 1` copies of either handler act like one |
| `BiometricsPanel.Readings` | src/Biometrics.tsx:44-47 | each of name, heart rate, blood O2 and body temperature shows its value when truthy and `Unknown` when it is falsy or when there is no biometrics record, under its own caption and unit suffix |
| `BiometricsPanel.ZeroShowsUnknown` | src/Biometrics.tsx:44-47 | a zero reading and an empty name show `Unknown`, the same as a missing record |
| `BiometricsPanel.Panel` | src/Biometrics.tsx:30-54 | one entry per unit in list order, headed `Unit <id>`, with the unit's swatch and readings, keyed by the id or, when the id is empty, by `String(idx)` of the position |
| `BiometricsPanel.KeysUnique` | src/Biometrics.tsx:36 | distinct non-empty ids give distinct keys |
| `BiometricsPanel.IndexKeysUnique` | src/Biometrics.tsx:36 | units without ids get distinct position keys |
| `BiometricsPanel.KeysCanCollide` | src/Biometrics.tsx:36 | a unit `1` followed by an unnamed unit gives two entries keyed `1` |

## Left out

- The relay server (`index.js`) only serves static files and reads `PORT`. It has no
  relay logic, so it is not modelled. The same goes for `public/main.js` (Google Maps
  set-up) and `src/App.tsx` (a fixed two-unit list).
- The Socket.io transport is not modelled: connecting, subscribing and `socket.emit`.
  Commands are returned as values.
- `parseFloat` and `Cesium.Cartesian3.fromDegrees` are floating-point or foreign-library
  code, so they are not interpreted.
- `ColorHash.HashedColor`: the hex formatting of `hslToHex` and the `parseInt` that reads
  it back are written as the channel arithmetic `r * 0x10000 + g * 0x100 + b`. That is
  exact only for channels in 0..255, which all three are here.
- Finite numbers are exact reals, so IEEE double rounding is not modelled. This covers
  `height + 0.8` and `height + 2.0`, the `hslToHex` arithmetic, and the hash for ids of
  2^21 or more characters. Below that length, `ColorHash.HashIsExact` shows the integer
  model is exact. The `hslToHex` channels lie between 0.88 and 0.91 before rounding, far
  from a rounding boundary.
- `MapViewer.ReconcileAll` and `MapViewer.OnUnitsChanged`: units are values, not shared
  objects. The source assigns handles onto the unit objects, so a list that holds the
  same object twice gets that object's entities once. The model treats the two elements
  as two units and appends entities for both.
- `UnitModel.ColorOf`: a tag that is not a number at all, such as a string, is not
  modelled. The tag is a `Js.Number`.
- Converting a finite numeric `ID` to a property key is Number-to-string formatting. It is
  a parameter (`numberToString`). Arrays are modelled as objects, so an array `ID` becomes
  `[object Object]` rather than its joined elements.
- A plain object treats the key `__proto__` specially. An `ID` of `__proto__` is modelled
  as an ordinary key.
- `toLowerCase` lowers only A–Z. No other character lowers to one of the six control
  letters.
- The rendering parts are not modelled:
  - the Three.js `onDraw` loop;
  - the Cesium viewer and tileset configuration, wireframe and transparency effects;
  - camera transforms, and the per-tick camera movement by the velocities.
  Creating the viewer is modelled only as "a viewer with no entities now exists".
- React state and effect scheduling is not modelled. Each effect body is one atomic step.
- `map.moveCamera` is modelled only as the map centre it sets.
- JavaScript strings are UTF-16 and may hold a lone surrogate. A Dafny `string` holds
  whole code points, so such ids are not modelled.
- `console.log`, `console.error`, `console.warn` and `console.debug` output is not modelled.

=== FILE: biometrics_panel.dfy ===
/** The biometrics panel: one entry per unit, in list order, with a colour swatch, a header
    and four readings that fall back to `Unknown` when missing or falsy. */
module BiometricsPanel {
  import opened Wrappers
  import opened Js
  import opened UnitModel
  import opened UnitColors

  /** What a reading renders: a text or a number. */
  datatype Shown = Text(s: string) | Reading(n: Number)

  const Unknown: Shown := Text("Unknown")

  /** `value || "Unknown"` for a text and for a number. */
  function ShowText(s: string): Shown {
    if s != "" then Text(s) else Unknown
  }

  function ShowNumber(n: Number): Shown {
    if NumberTruthy(n) then Reading(n) else Unknown
  }

  /** One line of an entry: a caption, the reading, and a unit suffix. */
  datatype Line = Line(caption: string, value: Shown, suffix: string)

  /** `unit?.biometrics?.<field> || "Unknown"` for the four readings, with their captions. */
  function Readings(b: Option<Biometrics>): (lines: seq<Line>)
    ensures |lines| == 4
    ensures b.None? ==> forall i :: 0 <= i < 4 ==> lines[i].value == Unknown
    ensures b.Some? && b.value.unitName != "" ==> lines[0].value == Text(b.value.unitName)
    ensures b.Some? && b.value.unitName == "" ==> lines[0].value == Unknown
    ensures b.Some? && NumberTruthy(b.value.heartRate) ==> lines[1].value == Reading(b.value.heartRate)
    ensures b.Some? && !NumberTruthy(b.value.heartRate) ==> lines[1].value == Unknown
    ensures b.Some? && NumberTruthy(b.value.bloodO2) ==> lines[2].value == Reading(b.value.bloodO2)
    ensures b.Some? && !NumberTruthy(b.value.bloodO2) ==> lines[2].value == Unknown
    ensures b.Some? && NumberTruthy(b.value.bodyTemp) ==> lines[3].value == Reading(b.value.bodyTemp)
    ensures b.Some? && !NumberTruthy(b.value.bodyTemp) ==> lines[3].value == Unknown
    ensures lines[0].caption == "Name: " && lines[1].caption == "Heart rate: "
            && lines[2].caption == "Blood O2: " && lines[3].caption == "Body temperature: "
    ensures lines[0].suffix == "" && lines[1].suffix == " BPM" && lines[2].suffix == "%" && lines[3].suffix == " °F"
  {
    match b
    case None =>
      [Line("Name: ", Unknown, ""), Line("Heart rate: ", Unknown, " BPM"),
       Line("Blood O2: ", Unknown, "%"), Line("Body temperature: ", Unknown, " °F")]
    case Some(r) =>
      [Line("Name: ", ShowText(r.unitName), ""), Line("Heart rate: ", ShowNumber(r.heartRate), " BPM"),
       Line("Blood O2: ", ShowNumber(r.bloodO2), "%"), Line("Body temperature: ", ShowNumber(r.bodyTemp), " °F")]
  }

  /** A zero reading is indistinguishable from a missing one: both show `Unknown`. */
  lemma ZeroShowsUnknown(name: string, other: Number)
    ensures Readings(Some(Biometrics(name, Finite(0.0), other, other)))[1].value
            == Readings(None)[1].value == Unknown
    ensures Readings(Some(Biometrics("", other, other, other)))[0].value == Unknown
  {
  }

  /** One entry of the panel. */
  datatype Entry = Entry(key: string, swatch: string, header: string, lines: seq<Line>)

  /** `unit?.id || idx`: React turns the key into a string. */
  function EntryKey(u: Unit, idx: nat): string {
    if u.id != "" then u.id else NatToString(idx)
  }

  function EntryOf(u: Unit, idx: nat): Entry {
    Entry(EntryKey(u, idx), UnitColorToRgba(u.color), "Unit " + u.id, Readings(u.biometrics))
  }

  /** The panel: one entry per unit, in list order, keyed by the id (or by the position
      when the id is empty), headed `Unit <id>` and with the unit's swatch. */
  function Panel(units: seq<Unit>): (entries: seq<Entry>)
    ensures |entries| == |units|
    ensures forall i :: 0 <= i < |units| ==>
              && entries[i].header == "Unit " + units[i].id
              && entries[i].swatch == UnitColorToRgba(units[i].color)
              && entries[i].lines == Readings(units[i].biometrics)
              && (units[i].id != "" ==> entries[i].key == units[i].id)
              && (units[i].id == "" ==> entries[i].key == NatToString(i))
  {
    seq(|units|, i requires 0 <= i < |units| => EntryOf(units[i], i))
  }

  /** Keys are unique when ids are distinct and none is empty. */
  lemma KeysUnique(units: seq<Unit>)
    requires forall i :: 0 <= i < |units| ==> units[i].id != ""
    requires forall i, j :: 0 <= i < j < |units| ==> units[i].id != units[j].id
    ensures forall i, j :: 0 <= i < j < |units| ==> Panel(units)[i].key != Panel(units)[j].key
  {
  }

  /** Units without ids are keyed by distinct positions. */
  lemma IndexKeysUnique(units: seq<Unit>)
    requires forall i :: 0 <= i < |units| ==> units[i].id == ""
    ensures forall i, j :: 0 <= i < j < |units| ==> Panel(units)[i].key != Panel(units)[j].key
  {
  }

  /** With an empty id the position key can collide with another unit's id: unit `1`
      first, an unnamed unit second, both get key `1`. */
  lemma KeysCanCollide(a: Unit, b: Unit)
    requires a.id == "1" && b.id == ""
    ensures Panel([a, b])[0].key == Panel([a, b])[1].key == "1"
  {
  }
}

=== FILE: color_hash.dfy ===
/** The colour the 3D overlay gives a unit: a fixed palette for the five well-known ids,
    otherwise a hue derived from a 31-multiplier rolling hash of the id. */
module ColorHash {
  import opened Wrappers
  import opened Js

  /** The fixed 24-bit colours of palette slots 1 to 5. */
  function PaletteColor(n: nat): nat
    requires 1 <= n <= 5
  {
    if n == 1 then 0x59c759
    else if n == 2 then 0xff5757
    else if n == 3 then 0x5e00ff
    else if n == 4 then 0x689096
    else 0xdbc7ff
  }

  /** The texts that get a palette colour: `unit-N` and `unit-unit-N` for N from 1 to 5. */
  const PaletteNames: set<string> := {
    "unit-1", "unit-unit-1", "unit-2", "unit-unit-2", "unit-3", "unit-unit-3",
    "unit-4", "unit-unit-4", "unit-5", "unit-unit-5" }

  /** The decimal digit of a palette slot. */
  function Digit(n: nat): string
    requires 1 <= n <= 5
  {
    ['0' + n as char]
  }

  /** The palette slot a text selects, if any. */
  function PaletteSlot(s: string): (slot: Option<nat>)
    ensures slot.Some? <==> s in PaletteNames
    ensures slot.Some? ==> 1 <= slot.value <= 5
                           && (s == "unit-" + Digit(slot.value) || s == "unit-unit-" + Digit(slot.value))
  {
    if s == "unit-1" || s == "unit-unit-1" then Some(1)
    else if s == "unit-2" || s == "unit-unit-2" then Some(2)
    else if s == "unit-3" || s == "unit-unit-3" then Some(3)
    else if s == "unit-4" || s == "unit-unit-4" then Some(4)
    else if s == "unit-5" || s == "unit-unit-5" then Some(5)
    else None
  }

  /** `char.charCodeAt(0)` for one element of `[...s]`: spreading a string yields whole code
      points, and `charCodeAt(0)` reads the first UTF-16 code unit of one, which is the high
      surrogate for a code point above U+FFFF. */
  function CodeUnit(c: char): (u: nat)
    ensures u < 0x1_0000
    ensures c as int < 0x1_0000 ==> u == c as int
    ensures c as int >= 0x1_0000 ==> 0xD800 <= u < 0xDC00
  {
    if c as int < 0x1_0000 then c as int else 0xD800 + (c as int - 0x1_0000) / 0x400
  }

  /** The high surrogate picked for an astral code point is the one UTF-16 pairs with the
      low surrogate `0xDC00 + (c - 0x10000) % 0x400` to encode it. */
  lemma CodeUnitIsHighSurrogate(c: char)
    requires c as int >= 0x1_0000
    ensures 0x1_0000 + (CodeUnit(c) - 0xD800) * 0x400 + (c as int - 0x1_0000) % 0x400 == c as int
  {
  }

  /** One step of the fold: `code + ((acc << 5) - acc)`, with `acc` a plain number and the
      shift done in int32. */
  function HashStep(acc: int, code: nat): int {
    code + (ShiftLeft5(acc) - acc)
  }

  /** `[...s].reduce(step, acc)`, exactly as written: the first character is folded first. */
  function Reduce(acc: int, s: string): int
    decreases |s|
  {
    if s == "" then acc else Reduce(HashStep(acc, CodeUnit(s[0])), s[1..])
  }

  /** The hash `getColorFromText` computes, starting from 0. */
  function StringHash(s: string): int {
    Reduce(0, s)
  }

  /** The hash is a left fold: appending a character applies one more step to the hash of
      the prefix. */
  lemma {:induction false} ReduceSnoc(acc: int, s: string, c: char)
    ensures Reduce(acc, s + [c]) == HashStep(Reduce(acc, s), CodeUnit(c))
    decreases |s|
  {
    if s == "" {
      assert s + [c] == [c];
      assert [c][1..] == "";
    } else {
      assert (s + [c])[1..] == s[1..] + [c];
      ReduceSnoc(HashStep(acc, CodeUnit(s[0])), s[1..], c);
    }
  }

  lemma StringHashSnoc(s: string, c: char)
    ensures StringHash(s + [c]) == HashStep(StringHash(s), CodeUnit(c))
    ensures StringHash("") == 0
  {
    ReduceSnoc(0, s, c);
  }

  function Abs(x: int): nat {
    if x < 0 then -x else x
  }

  /** One step moves the accumulator by less than 2^32 in magnitude. */
  lemma HashStepBound(acc: int, code: nat)
    requires code < 0x1_0000
    ensures Abs(HashStep(acc, code)) <= Abs(acc) + TwoTo31 + 0x1_0000
    ensures Abs(ShiftLeft5(acc) - acc) <= Abs(acc) + TwoTo31
  {
  }

  /** After folding `s`, the accumulator has grown by at most 2^32 per character. */
  lemma {:induction false} ReduceBound(acc: int, s: string)
    ensures Abs(Reduce(acc, s)) <= Abs(acc) + |s| * TwoTo32
    decreases |s|
  {
    if s != "" {
      var next := HashStep(acc, CodeUnit(s[0]));
      HashStepBound(acc, CodeUnit(s[0]));
      ReduceBound(next, s[1..]);
    }
  }

  /** The largest integer a JavaScript number holds exactly. */
  const MaxSafeInteger: int := 0x1F_FFFF_FFFF_FFFF

  /** For ids shorter than 2^21 characters every intermediate value of the fold, the
      accumulator and `(acc << 5) - acc`, stays within the exactly representable integers,
      so the integer model is the value JavaScript computes. */
  lemma HashIsExact(s: string, k: nat)
    requires |s| < 0x20_0000
    requires k < |s|
    ensures Abs(StringHash(s[..k])) <= MaxSafeInteger
    ensures Abs(ShiftLeft5(StringHash(s[..k])) - StringHash(s[..k])) <= MaxSafeInteger
    ensures Abs(HashStep(StringHash(s[..k]), CodeUnit(s[k]))) <= MaxSafeInteger
  {
    var h := StringHash(s[..k]);
    ReduceBound(0, s[..k]);
    assert Abs(h) <= k * TwoTo32;
    assert k * TwoTo32 <= (0x20_0000 - 2) * TwoTo32;
    HashStepBound(h, CodeUnit(s[k]));
  }

  /** `Math.round`: the nearest integer, halves rounded up. */
  function Round(x: real): int {
    (x + 0.5).Floor
  }

  /** JavaScript `%` on numbers: the remainder of the division truncated toward zero. */
  function RealRem(x: real, m: real): real
    requires m > 0.0
  {
    var q := x / m;
    var t := if q >= 0.0 then q.Floor else -((-q).Floor);
    x - m * t as real
  }

  function RealMin(x: real, y: real): real {
    if x <= y then x else y
  }

  function RealMax(x: real, y: real): real {
    if x >= y then x else y
  }

  /** The number behind one hex pair `f(n)` of `hslToHex(h, s, l)`, before it is formatted:
      `Math.round(255 * (l/100 - a * clamp(k)))` with `a = s * min(l/100, 1 - l/100) / 100`,
      `k = (n + h/30) % 12` and the clamp `max(min(k - 3, 9 - k, 1), -1)`. */
  function Channel(h: real, s: real, l: real, n: real): int {
    var light := l / 100.0;
    var a := s * RealMin(light, 1.0 - light) / 100.0;
    var k := RealRem(n + h / 30.0, 12.0);
    var clamp := RealMax(RealMin(RealMin(k - 3.0, 9.0 - k), 1.0), -1.0);
    Round(255.0 * (light - a * clamp))
  }

  /** The arguments `getColorFromText` passes as saturation and lightness. */
  const Saturation: real := 0.95
  const Lightness: real := 0.35

  /** With saturation 0.95 and lightness 0.35, both read by `hslToHex` as percentages, every
      channel lies between 0.884 and 0.901 before rounding, whatever the hue: it rounds to 1. */
  lemma ChannelIsOne(h: real, n: real)
    ensures Channel(h, Saturation, Lightness, n) == 1
  {
  }

  /** `parseInt(hslToHex(hue, 0.95, 0.35), 16)`. `hslToHex` writes the channels `f(0)`,
      `f(8)` and `f(4)` as two hex digits each after `0x`; all three are 1 here, so the
      digits are `010101` and the parsed value is the three channels as one 24-bit number. */
  function HashedColor(hue: int): (r: nat)
    ensures r == 0x01_0101
  {
    var h := hue as real;
    ChannelIsOne(h, 0.0);
    ChannelIsOne(h, 8.0);
    ChannelIsOne(h, 4.0);
    var red, green, blue :=
      Channel(h, Saturation, Lightness, 0.0), Channel(h, Saturation, Lightness, 8.0), Channel(h, Saturation, Lightness, 4.0);
    red * 0x1_0000 + green * 0x100 + blue
  }

  /** The hue of a text: `hash % 360` in JavaScript's truncating remainder. */
  function Hue(s: string): int {
    Rem(StringHash(s), 360)
  }

  /** The five palette colours. */
  const PaletteColors: set<nat> := {0x59c759, 0xff5757, 0x5e00ff, 0x689096, 0xdbc7ff}

  /** `getColorFromText(s)`: the slot's palette colour for the ten palette spellings,
      otherwise the colour `hslToHex` gives the hue. The palette is hit exactly for the
      palette spellings, and every other text comes out as the near-black 0x010101. */
  function GetColorFromText(s: string): (r: nat)
    ensures r in PaletteColors <==> s in PaletteNames
    ensures PaletteSlot(s).Some? ==> r == PaletteColor(PaletteSlot(s).value)
    ensures s !in PaletteNames ==> r == 0x01_0101
  {
    match PaletteSlot(s)
    case Some(n) => PaletteColor(n)
    case None => HashedColor(Hue(s))
  }

  /** The hue is `hash % 360` as JavaScript computes it: strictly between -360 and 360, with
      the sign of the hash, and differing from it by a multiple of 360. */
  lemma HueOfHash(s: string)
    ensures -360 < Hue(s) < 360
    ensures StringHash(s) > 0 ==> Hue(s) >= 0
    ensures StringHash(s) < 0 ==> Hue(s) <= 0
    ensures Hue(s) > 0 ==> StringHash(s) > 0
    ensures Hue(s) < 0 ==> StringHash(s) < 0
    ensures (StringHash(s) - Hue(s)) % 360 == 0
  {
  }

  /** The yellow the call site falls back to when the colour is 0. */
  const Yellow: nat := 0xff_ff00

  /** The colour of a unit id as the overlay draws it: `getColorFromText(`unit-${id}`) ||
      0xffff00`. No colour `getColorFromText` returns is 0, so the fallback is never used. */
  function UnitIdColor(id: string): (r: nat)
    ensures r == GetColorFromText("unit-" + id)
    ensures r != Yellow
  {
    var c := GetColorFromText("unit-" + id);
    if c == 0 then Yellow else c
  }

  /** Ids `N` and `unit-N` (N from 1 to 5) get the same fixed palette colour. */
  lemma PrefixedIdsShareColor(n: nat)
    requires 1 <= n <= 5
    ensures UnitIdColor(Digit(n)) == PaletteColor(n)
    ensures UnitIdColor("unit-" + Digit(n)) == PaletteColor(n)
  {
    var d := Digit(n);
    var once, twice := "unit-" + d, "unit-" + ("unit-" + d);
    assert twice == "unit-unit-" + d;
    if n == 1 {
      assert once == "unit-1" && twice == "unit-unit-1";
    } else if n == 2 {
      assert once == "unit-2" && twice == "unit-unit-2";
    } else if n == 3 {
      assert once == "unit-3" && twice == "unit-unit-3";
    } else if n == 4 {
      assert once == "unit-4" && twice == "unit-unit-4";
    } else {
      assert once == "unit-5" && twice == "unit-unit-5";
    }
  }

  /** The five palette slots have five different colours. */
  lemma PaletteDistinct(m: nat, n: nat)
    requires 1 <= m <= 5 && 1 <= n <= 5
    ensures PaletteColor(m) == PaletteColor(n) <==> m == n
  {
  }

  /** A hashed colour is never a palette colour. */
  lemma HashedNeverPalette(s: string, t: string)
    requires s in PaletteNames && t !in PaletteNames
    ensures GetColorFromText(s) != GetColorFromText(t)
  {
  }

  /** The hue has no effect on the result: all texts outside the palette share one colour. */
  lemma HashedTextsAlike(s: string, t: string)
    requires s !in PaletteNames && t !in PaletteNames
    ensures GetColorFromText(s) == GetColorFromText(t)
  {
  }
}

=== FILE: commands.dfy ===
/** The overlay's Start and Stop buttons: the text an operator types into a prompt becomes a
    `start` or `stop` command, or, for malformed Start input, an alert. */
module Commands {
  import opened Wrappers
  import opened Js

  /** `parseFloat(text)`, left uninterpreted: the command carries the text parsed. */
  datatype ParsedFloat = ParseFloat(text: string)

  /** A command emitted to the control plane. */
  datatype Command =
    | Start(lat: ParsedFloat, lng: ParsedFloat, alt: ParsedFloat, unitId: string)
    | Stop(unitId: string)

  /** What pressing Start does: emit a command, or alert the operator. */
  datatype StartOutcome = Emit(command: Command) | Alert(message: string)

  const InvalidInput: string := "Input is not valid"
  const NoId: string := "no_id"

  /** `parseFloat(field.trim() || 0.00)`: a blank field is the number 0, whose string form
      `parseFloat` reads is "0". */
  function CoordinateField(field: string): (r: ParsedFloat)
    ensures r.text != "" && r.text == Trim(r.text)
    ensures !AllWhiteSpace(field) ==> r.text == Trim(field)
    ensures AllWhiteSpace(field) ==> r.text == "0"
  {
    var t := Trim(field);
    TrimIdempotent(field);
    ParseFloat(if t == "" then "0" else t)
  }

  /** `field.trim() || "no_id"`: the trimmed field, or `no_id` when nothing is left. */
  function IdField(field: string): (id: string)
    ensures id != "" && id == Trim(id)
    ensures !AllWhiteSpace(field) ==> id == Trim(field)
    ensures AllWhiteSpace(field) ==> id == NoId
  {
    var t := Trim(field);
    TrimIdempotent(field);
    if t == "" then NoId else t
  }

  /** The Start button. A cancelled prompt (`None`) or input with fewer than four
      comma-separated fields raises the alert and emits nothing; otherwise the first four
      fields become latitude, longitude, altitude and unit id. */
  function OnStart(input: Option<string>): (r: StartOutcome)
    ensures r.Emit? <==> input.Some? && |Split(input.value, ',')| >= 4
    ensures r.Alert? ==> r.message == InvalidInput
    ensures r.Emit? ==>
              var f := Split(input.value, ',');
              && r.command.Start?
              && r.command.lat == CoordinateField(f[0])
              && r.command.lng == CoordinateField(f[1])
              && r.command.alt == CoordinateField(f[2])
              && r.command.unitId == IdField(f[3])
  {
    match input
    case None => Alert(InvalidInput)
    case Some(text) =>
      var data := Split(text, ',');
      if |data| >= 4 then
        Emit(Start(CoordinateField(data[0]), CoordinateField(data[1]), CoordinateField(data[2]),
                   IdField(data[3])))
      else Alert(InvalidInput)
  }

  /** Four fields means at least three commas. */
  lemma StartNeedsThreeCommas(input: string)
    ensures OnStart(Some(input)).Emit? <==> Count(input, ',') >= 3
  {
    SplitLength(input, ',');
  }

  /** Fields after the fourth are ignored: inputs that agree on their first four fields
      give the same outcome. */
  lemma ExtraFieldsIgnored(s: string, t: string)
    requires |Split(s, ',')| >= 4 && |Split(t, ',')| >= 4
    requires Split(s, ',')[..4] == Split(t, ',')[..4]
    ensures OnStart(Some(s)) == OnStart(Some(t))
  {
    SplitLength(s, ',');
    SplitLength(t, ',');
    assert Split(s, ',')[3] == Split(s, ',')[..4][3];
    assert Split(t, ',')[3] == Split(t, ',')[..4][3];
    assert Split(s, ',')[0] == Split(t, ',')[0] by { assert Split(s, ',')[0] == Split(s, ',')[..4][0]; }
    assert Split(s, ',')[1] == Split(t, ',')[1] by { assert Split(s, ',')[1] == Split(s, ',')[..4][1]; }
    assert Split(s, ',')[2] == Split(t, ',')[2] by { assert Split(s, ',')[2] == Split(s, ',')[..4][2]; }
  }

  /** The four fields an operator types, joined with commas, come back as the command:
      coordinates and id are read from exactly the fields given. */
  lemma StartRoundTrip(lat: string, lng: string, alt: string, id: string)
    requires ',' !in lat && ',' !in lng && ',' !in alt && ',' !in id
    ensures OnStart(Some(lat + "," + lng + "," + alt + "," + id)) ==
              Emit(Start(CoordinateField(lat), CoordinateField(lng), CoordinateField(alt), IdField(id)))
  {
    var fields := [lat, lng, alt, id];
    assert fields[1..][1..][1..] == [id];
    assert fields[1..][1..] == [alt, id];
    assert fields[1..] == [lng, alt, id];
    assert Join([alt, id], ',') == alt + "," + id;
    assert Join([lng, alt, id], ',') == lng + "," + (alt + "," + id);
    assert Join(fields, ',') == lat + "," + (lng + "," + (alt + "," + id));
    assert lat + "," + (lng + "," + (alt + "," + id)) == lat + "," + lng + "," + alt + "," + id;
    SplitJoin(fields, ',');
  }

  lemma NoIdIsTrimmed()
    ensures Trim(NoId) == NoId
  {
  }

  /** The Stop button: the trimmed input, or `no_id` when the prompt was cancelled or
      left blank. A `stop` is always emitted. */
  function OnStop(input: Option<string>): (r: Command)
    ensures r.Stop? && r.unitId != "" && r.unitId == Trim(r.unitId)
    ensures input.None? ==> r.unitId == NoId
    ensures input.Some? ==> r.unitId == IdField(input.value)
  {
    match input
    case None => NoIdIsTrimmed(); Stop(NoId)
    case Some(text) => Stop(IdField(text))
  }
}

=== FILE: device_data.dfy ===
/** The overlay client's `device-data` handler: a telemetry message whose three Position
    components are all truthy overwrites the entry of its `ID` in the id → position table
    and moves the map centre; any other message changes nothing. */
module DeviceData {
  import opened Wrappers
  import opened Js

  /** An entry of the position table: the Position components as received, unconverted. */
  datatype LatLngAltitude = LatLngAltitude(lat: Value, lng: Value, altitude: Value)

  /** A map centre. */
  datatype LatLng = LatLng(lat: Value, lng: Value)

  /** What the handler changes: the table keyed by the string form of `ID`, and the map
      centre (`mapOptions.center`, which the camera is moved to as well). */
  datatype MapState = MapState(unitPositions: map<string, LatLngAltitude>, center: LatLng)

  /** The table starts empty and the map starts centred on the configured location. */
  const InitialState: MapState :=
    MapState(map[], LatLng(Num(Finite(35.6590945)), Num(Finite(139.6999859))))

  /** The reads `data?.Position?.x`, `?.y` and `?.z`, as latitude, longitude and altitude. */
  function PositionOf(data: Value): LatLngAltitude {
    var p := Get(data, "Position");
    LatLngAltitude(Get(p, "x"), Get(p, "y"), Get(p, "z"))
  }

  /** The acceptance test `lat && lng && altitude`. */
  predicate Accepted(data: Value) {
    var p := PositionOf(data);
    Truthy(p.lat) && Truthy(p.lng) && Truthy(p.altitude)
  }

  /** The key `unitPositions[id]` writes: `data?.ID` converted to a property key. */
  function KeyOf(data: Value, numberToString: real -> string): string {
    PropertyKey(Get(data, "ID"), numberToString)
  }

  /** The `device-data` handler. A rejected message leaves table and centre as they were;
      an accepted one replaces the entry of its key wholesale, adds no other key, keeps
      every other entry, and centres the map on its latitude and longitude. */
  function OnDeviceData(st: MapState, data: Value, numberToString: real -> string): (st': MapState)
    ensures !Accepted(data) ==> st' == st
    ensures Accepted(data) ==>
              var key := KeyOf(data, numberToString);
              var p := PositionOf(data);
              && st'.unitPositions.Keys == st.unitPositions.Keys + {key}
              && st'.unitPositions[key] == LatLngAltitude(Get(Get(data, "Position"), "x"),
                                                          Get(Get(data, "Position"), "y"),
                                                          Get(Get(data, "Position"), "z"))
              && (forall k :: k in st.unitPositions && k != key ==>
                                st'.unitPositions[k] == st.unitPositions[k])
              && st'.center == LatLng(p.lat, p.lng)
  {
    var p := PositionOf(data);
    if Truthy(p.lat) && Truthy(p.lng) && Truthy(p.altitude) then
      MapState(st.unitPositions[KeyOf(data, numberToString) := p], LatLng(p.lat, p.lng))
    else st
  }

  /** A message is accepted exactly when none of x, y, z is falsy: a zero, NaN, empty
      string, `null` or missing component rejects it, and so does a missing Position. */
  lemma AcceptedIff(data: Value)
    ensures Accepted(data) <==>
              && Truthy(Get(Get(data, "Position"), "x"))
              && Truthy(Get(Get(data, "Position"), "y"))
              && Truthy(Get(Get(data, "Position"), "z"))
    ensures Get(data, "Position") == Undefined ==> !Accepted(data)
    ensures Get(Get(data, "Position"), "x") in {Undefined, Num(Finite(0.0)), Num(NaN)} ==> !Accepted(data)
  {
  }

  /** `ID` takes no part in the decision: replacing it never changes acceptance. */
  lemma IdNotChecked(props: map<string, Value>, id1: Value, id2: Value)
    ensures Accepted(Object(props["ID" := id1])) == Accepted(Object(props["ID" := id2]))
  {
  }

  /** Handling the same message twice leaves the same state as handling it once. */
  lemma OnDeviceDataIdempotent(st: MapState, data: Value, numberToString: real -> string)
    ensures OnDeviceData(OnDeviceData(st, data, numberToString), data, numberToString)
            == OnDeviceData(st, data, numberToString)
  {
  }

  /** The handler applied to a stream of messages, in arrival order. */
  function Replay(st: MapState, msgs: seq<Value>, numberToString: real -> string): MapState
    decreases |msgs|
  {
    if msgs == [] then st
    else OnDeviceData(Replay(st, msgs[..|msgs| - 1], numberToString), msgs[|msgs| - 1], numberToString)
  }

  /** The last accepted message of a stream, if any. */
  function LastAccepted(msgs: seq<Value>): (r: Option<Value>)
    ensures r.Some? ==> r.value in msgs && Accepted(r.value)
    ensures r.None? ==> forall i :: 0 <= i < |msgs| ==> !Accepted(msgs[i])
    decreases |msgs|
  {
    if msgs == [] then None
    else if Accepted(msgs[|msgs| - 1]) then Some(msgs[|msgs| - 1])
    else LastAccepted(msgs[..|msgs| - 1])
  }

  /** The last accepted message of a stream whose key is `key`, if any. */
  function LastAcceptedFor(msgs: seq<Value>, key: string, numberToString: real -> string): (r: Option<Value>)
    ensures r.Some? ==> r.value in msgs && Accepted(r.value) && KeyOf(r.value, numberToString) == key
    decreases |msgs|
  {
    if msgs == [] then None
    else if Accepted(msgs[|msgs| - 1]) && KeyOf(msgs[|msgs| - 1], numberToString) == key then
      Some(msgs[|msgs| - 1])
    else LastAcceptedFor(msgs[..|msgs| - 1], key, numberToString)
  }

  /** After a stream, the centre is the latitude and longitude of the last accepted message
      (the starting centre when none was accepted). */
  lemma {:induction false} ReplayCenter(st: MapState, msgs: seq<Value>, numberToString: real -> string)
    ensures Replay(st, msgs, numberToString).center ==
              match LastAccepted(msgs)
              case Some(d) => LatLng(PositionOf(d).lat, PositionOf(d).lng)
              case None => st.center
    decreases |msgs|
  {
    if msgs != [] {
      ReplayCenter(st, msgs[..|msgs| - 1], numberToString);
    }
  }

  /** After a stream, each key's entry is the position of the last accepted message with
      that key; a key no accepted message carried keeps its starting entry, or stays absent. */
  lemma {:induction false} ReplayEntry(st: MapState, msgs: seq<Value>, key: string, numberToString: real -> string)
    ensures var t := Replay(st, msgs, numberToString).unitPositions;
            match LastAcceptedFor(msgs, key, numberToString)
            case Some(d) => key in t && t[key] == PositionOf(d)
            case None => (key in t <==> key in st.unitPositions)
                         && (key in t ==> t[key] == st.unitPositions[key])
    decreases |msgs|
  {
    if msgs != [] {
      ReplayEntry(st, msgs[..|msgs| - 1], key, numberToString);
    }
  }

  /** From the page's starting state, the table holds exactly the keys of accepted messages,
      and the map stays on its configured centre until a message is accepted. */
  lemma FromInitialState(msgs: seq<Value>, key: string, numberToString: real -> string)
    ensures key in Replay(InitialState, msgs, numberToString).unitPositions
            <==> LastAcceptedFor(msgs, key, numberToString).Some?
    ensures LastAccepted(msgs).None? ==>
              Replay(InitialState, msgs, numberToString).center
              == LatLng(Num(Finite(35.6590945)), Num(Finite(139.6999859)))
  {
    ReplayCenter(InitialState, msgs, numberToString);
    ReplayEntry(InitialState, msgs, key, numberToString);
  }
}

=== FILE: js.dfy ===
/** The pieces of JavaScript value semantics the client code relies on: numbers with NaN and
    the infinities, truthiness and `||`, optional-chained property reads, the int32 conversion
    behind `<<`, the truncating `%`, and the string operations `trim`, `split` and
    `toLowerCase`. */
module Js {

  /** A JavaScript number. Finite values are exact reals: rounding to IEEE doubles is not
      modelled. */
  datatype Number = NaN | PosInfinity | NegInfinity | Finite(r: real)

  /** A JSON-like JavaScript value, as a socket payload delivers it. Arrays are objects. */
  datatype Value =
    | Undefined
    | Null
    | Bool(b: bool)
    | Num(n: Number)
    | Str(s: string)
    | Object(props: map<string, Value>)

  /** ToBoolean on numbers: 0 and NaN are falsy, everything else truthy. */
  predicate NumberTruthy(n: Number) {
    !n.NaN? && n != Finite(0.0)
  }

  /** ToBoolean: `undefined`, `null`, `false`, 0, NaN and "" are falsy; objects are truthy. */
  predicate Truthy(v: Value) {
    match v
    case Undefined => false
    case Null => false
    case Bool(b) => b
    case Num(n) => NumberTruthy(n)
    case Str(s) => s != ""
    case Object(_) => true
  }

  /** `v?.name` for the data property names the client reads (`ID`, `Position`, `x`, `y`,
      `z`): `undefined` and `null` short-circuit to `undefined`, primitives have no such
      property, and an object yields its own property or `undefined`. */
  function Get(v: Value, name: string): Value {
    match v
    case Object(p) => if name in p then p[name] else Undefined
    case _ => Undefined
  }

  /** `n + d` for a number and a finite constant. */
  function AddReal(n: Number, d: real): Number {
    match n
    case Finite(r) => Finite(r + d)
    case _ => n
  }

  /** ToPropertyKey: the string a value becomes when used as an object key. The formatting
      of finite numbers is floating-point code outside the model and is a parameter. */
  function PropertyKey(v: Value, numberToString: real -> string): string {
    match v
    case Undefined => "undefined"
    case Null => "null"
    case Bool(b) => if b then "true" else "false"
    case Num(n) =>
      (match n
       case NaN => "NaN"
       case PosInfinity => "Infinity"
       case NegInfinity => "-Infinity"
       case Finite(r) => numberToString(r))
    case Str(s) => s
    case Object(_) => "[object Object]"
  }

  // ---------------------------------------------------------------------------
  // 32-bit integer arithmetic
  // ---------------------------------------------------------------------------

  const TwoTo31: int := 0x8000_0000
  const TwoTo32: int := 0x1_0000_0000

  predicate IsInt32(x: int) {
    -TwoTo31 <= x < TwoTo31
  }

  /** ToInt32 on an integral number: the unique int32 congruent to `x` modulo 2^32. */
  function ToInt32(x: int): (r: int)
    ensures IsInt32(r)
    ensures (x - r) % TwoTo32 == 0
  {
    var m := x % TwoTo32;
    if m >= TwoTo31 then m - TwoTo32 else m
  }

  /** `x << 5` on an integral number: the int32 conversion of the operand shifted left by
      five bits, wrapped back into int32, so congruent to `32 * x` modulo 2^32. */
  function ShiftLeft5(x: int): (r: int)
    ensures IsInt32(r)
    ensures (32 * x - r) % TwoTo32 == 0
  {
    var a := ToInt32(x);
    var r := ToInt32(a * 32);
    ScaledCongruence(x, a, r);
    r
  }

  lemma ScaledCongruence(x: int, a: int, r: int)
    requires (x - a) % TwoTo32 == 0
    requires (32 * a - r) % TwoTo32 == 0
    ensures (32 * x - r) % TwoTo32 == 0
  {
    var k := (x - a) / TwoTo32;
    assert x - a == k * TwoTo32;
    var k2 := (32 * a - r) / TwoTo32;
    assert 32 * a - r == k2 * TwoTo32;
    assert 32 * x - r == (32 * k + k2) * TwoTo32;
  }

  /** The quotient of `a / d` truncated toward zero, as `Math.trunc(a / d)`. */
  function Quot(a: int, d: int): int
    requires d > 0
  {
    if a >= 0 then a / d else -((-a) / d)
  }

  /** `a % d` on integers with `d > 0`: JavaScript truncates toward zero, so the remainder has
      the sign of the dividend and completes the truncated division. */
  function Rem(a: int, d: int): (r: int)
    requires d > 0
    ensures -d < r < d
    ensures a >= 0 ==> r >= 0
    ensures a <= 0 ==> r <= 0
    ensures a == d * Quot(a, d) + r
  {
    if a >= 0 then a % d else -((-a) % d)
  }

  // ---------------------------------------------------------------------------
  // Strings
  // ---------------------------------------------------------------------------

  /** The characters `String.prototype.trim` removes: WhiteSpace and LineTerminator of
      section 12.2 and 12.3 of ECMA-262. */
  predicate IsWhiteSpace(c: char) {
    || c == '\t' || c == '\U{B}' || c == '\U{C}' || c == ' ' || c == '\U{A0}' || c == '\U{FEFF}'
    || c == '\U{1680}' || ('\U{2000}' <= c <= '\U{200A}') || c == '\U{202F}' || c == '\U{205F}'
    || c == '\U{3000}'
    || c == '\n' || c == '\r' || c == '\U{2028}' || c == '\U{2029}'
  }

  predicate AllWhiteSpace(s: string) {
    forall i :: 0 <= i < |s| ==> IsWhiteSpace(s[i])
  }

  /** The number of white-space characters at the front of `s`. */
  function LeadingSpace(s: string): (n: nat)
    ensures n <= |s|
    ensures AllWhiteSpace(s[..n])
    ensures n < |s| ==> !IsWhiteSpace(s[n])
  {
    if |s| > 0 && IsWhiteSpace(s[0]) then
      var k := LeadingSpace(s[1..]);
      assert s[1..][..k] == s[1..k + 1];
      1 + k
    else 0
  }

  /** The number of white-space characters at the end of `s`. */
  function TrailingSpace(s: string): (n: nat)
    ensures n <= |s|
    ensures AllWhiteSpace(s[|s| - n..])
    ensures n < |s| ==> !IsWhiteSpace(s[|s| - 1 - n])
  {
    if |s| > 0 && IsWhiteSpace(s[|s| - 1]) then
      var k := TrailingSpace(s[..|s| - 1]);
      assert s[..|s| - 1][|s| - 1 - k..] == s[|s| - 1 - k..|s| - 1];
      1 + k
    else 0
  }

  /** `s.trim()`: `s` with white space removed from both ends. The result is the infix of
      `s` between a white-space prefix and a white-space suffix, and it neither starts nor
      ends with white space. */
  function Trim(s: string): (r: string)
    ensures |r| <= |s|
    ensures r == "" <==> AllWhiteSpace(s)
    ensures r != "" ==> !IsWhiteSpace(r[0]) && !IsWhiteSpace(r[|r| - 1])
    ensures exists i :: 0 <= i <= |s| - |r| && s[i..i + |r|] == r
                        && AllWhiteSpace(s[..i]) && AllWhiteSpace(s[i + |r|..])
  {
    var i := LeadingSpace(s);
    var rest := s[i..];
    var r := rest[..|rest| - TrailingSpace(rest)];
    TrimBounds(s, i, r);
    r
  }

  lemma TrimBounds(s: string, i: nat, r: string)
    requires i == LeadingSpace(s)
    requires r == s[i..][..|s[i..]| - TrailingSpace(s[i..])]
    ensures r == "" <==> AllWhiteSpace(s)
    ensures r != "" ==> !IsWhiteSpace(r[0]) && !IsWhiteSpace(r[|r| - 1])
    ensures i <= |s| - |r| && s[i..i + |r|] == r
    ensures AllWhiteSpace(s[..i]) && AllWhiteSpace(s[i + |r|..])
  {
    var rest := s[i..];
    var j := TrailingSpace(rest);
    assert r == s[i..i + |r|];
    assert rest[|rest| - j..] == s[i + |r|..];
    if r == "" {
      assert s[..i] == s;
    } else {
      assert s[i] == r[0];
      assert r[|r| - 1] == rest[|rest| - 1 - j];
    }
  }

  /** Trimming twice is trimming once. */
  lemma TrimIdempotent(s: string)
    ensures Trim(Trim(s)) == Trim(s)
  {
  }

  /** The index of the first occurrence of `c` in `s`. */
  function IndexOf(s: string, c: char): (k: nat)
    requires c in s
    ensures k < |s| && s[k] == c
    ensures c !in s[..k]
  {
    if s[0] == c then 0
    else
      var k := IndexOf(s[1..], c);
      assert s[..k + 1] == [s[0]] + s[1..][..k];
      1 + k
  }

  /** The fields of `s` separated by `sep`, joined back by `sep`. */
  function Join(fields: seq<string>, sep: char): string
    requires |fields| >= 1
  {
    if |fields| == 1 then fields[0] else fields[0] + [sep] + Join(fields[1..], sep)
  }

  /** `s.split(sep)` for a one-character separator: the separator-free fields of `s`, at
      least one of them, which joined by `sep` give `s` back. */
  function Split(s: string, sep: char): (fields: seq<string>)
    ensures |fields| >= 1
    ensures forall i :: 0 <= i < |fields| ==> sep !in fields[i]
    ensures Join(fields, sep) == s
    decreases |s|
  {
    if sep in s then
      var k := IndexOf(s, sep);
      var rest := Split(s[k + 1..], sep);
      var fields := [s[..k]] + rest;
      assert fields[1..] == rest;
      assert s == s[..k] + [sep] + s[k + 1..];
      fields
    else [s]
  }

  /** The number of occurrences of `c` in `s`. */
  function Count(s: string, c: char): nat {
    if s == "" then 0 else (if s[0] == c then 1 else 0) + Count(s[1..], c)
  }

  lemma {:induction false} CountAppend(a: string, b: string, c: char)
    ensures Count(a + b, c) == Count(a, c) + Count(b, c)
  {
    if a == "" {
      assert a + b == b;
    } else {
      assert (a + b)[1..] == a[1..] + b;
      CountAppend(a[1..], b, c);
    }
  }

  lemma {:induction false} CountAbsent(s: string, c: char)
    requires c !in s
    ensures Count(s, c) == 0
  {
    if s != "" {
      CountAbsent(s[1..], c);
    }
  }

  /** `split` yields one more field than there are separators. */
  lemma {:induction false} SplitLength(s: string, sep: char)
    ensures |Split(s, sep)| == Count(s, sep) + 1
    decreases |s|
  {
    if sep in s {
      var k := IndexOf(s, sep);
      SplitLength(s[k + 1..], sep);
      assert s == s[..k] + ([sep] + s[k + 1..]);
      CountAppend(s[..k], [sep] + s[k + 1..], sep);
      CountAppend([sep], s[k + 1..], sep);
      CountAbsent(s[..k], sep);
    } else {
      CountAbsent(s, sep);
    }
  }

  /** Splitting the join of separator-free fields gives the fields back, so `Split` is the
      only separator-free decomposition of a string. */
  lemma {:induction false} SplitJoin(fields: seq<string>, sep: char)
    requires |fields| >= 1
    requires forall i :: 0 <= i < |fields| ==> sep !in fields[i]
    ensures Split(Join(fields, sep), sep) == fields
  {
    var s := Join(fields, sep);
    if |fields| == 1 {
      assert sep !in s;
    } else {
      var tail := Join(fields[1..], sep);
      var f := fields[0];
      assert s == f + [sep] + tail;
      assert s[|f|] == sep;
      assert sep in s;
      var k := IndexOf(s, sep);
      assert s[..|f|] == f;
      assert s[k + 1..] == tail;
      SplitJoin(fields[1..], sep);
      assert [f] + fields[1..] == fields;
    }
  }

  /** `toLowerCase` on one character, for the Latin capital letters. */
  function LowerChar(c: char): char {
    if 'A' <= c <= 'Z' then (c as int + 32) as char else c
  }

  /** `s.toLowerCase()`, lowering the Latin capital letters A to Z. The result holds no
      capital letter, and each of its characters is the input's character or that
      character's capital form. */
  function ToLower(s: string): (r: string)
    ensures |r| == |s|
    ensures forall i :: 0 <= i < |r| ==> !('A' <= r[i] <= 'Z')
    ensures forall i :: 0 <= i < |s| ==> r[i] == s[i] || ('A' <= s[i] <= 'Z' && r[i] as int == s[i] as int + 32)
  {
    seq(|s|, i requires 0 <= i < |s| => LowerChar(s[i]))
  }

  /** Exactly two one-character strings lower-case to a given small letter: the letter and
      its capital. */
  lemma ToLowerLetter(k: string, c: char)
    requires 'a' <= c <= 'z'
    ensures ToLower(k) == [c] <==> k == [c] || k == [(c as int - 32) as char]
  {
  }

  /** Lower-casing twice is lower-casing once. */
  lemma ToLowerIdempotent(s: string)
    ensures ToLower(ToLower(s)) == ToLower(s)
  {
  }

  /** The decimal digits of a natural number, as `String(n)` writes them. */
  function NatToString(n: nat): (r: string)
    ensures |r| >= 1
    ensures forall i :: 0 <= i < |r| ==> '0' <= r[i] <= '9'
    ensures |r| > 1 ==> r[0] != '0'
    ensures DecimalValue(r) == n
  {
    var d := ['0' + (n % 10) as char];
    if n < 10 then d
    else
      var r := NatToString(n / 10) + d;
      assert r[..|r| - 1] == NatToString(n / 10);
      r
  }

  /** The value of a string of decimal digits. */
  function DecimalValue(s: string): int {
    if s == "" then 0 else 10 * DecimalValue(s[..|s| - 1]) + (s[|s| - 1] as int - '0' as int)
  }
}

=== FILE: key_controls.dfy ===
/** The viewer's keyboard flight controls: pressing d/a, r/f or w/s sets the camera velocity
    along one axis, releasing the key stops that axis. Keys are matched case-insensitively
    and only once a Cesium viewer exists. */
module KeyControls {
  import opened Js

  /** The camera velocity: right (x), up (y) and forward (z). */
  datatype Velocity = Velocity(x: real, y: real, z: real)

  /** The keypress speed; forward and backward move at twice this. */
  const Speed: real := 0.05

  /** The axis a key drives, by its lower-case name. */
  datatype Axis = X | Y | Z

  function AxisOf(lowered: string): Axis
    requires lowered in {"d", "a", "r", "f", "w", "s"}
  {
    if lowered in {"d", "a"} then X else if lowered in {"r", "f"} then Y else Z
  }

  /** The velocity of `v` along an axis. */
  function Along(v: Velocity, axis: Axis): real {
    match axis
    case X => v.x
    case Y => v.y
    case Z => v.z
  }

  /** `keypress`: the six conditional assignments in source order. */
  function OnKeyPress(viewerReady: bool, key: string, v: Velocity): (r: Velocity)
    ensures !viewerReady || ToLower(key) !in {"d", "a", "r", "f", "w", "s"} ==> r == v
    ensures viewerReady && ToLower(key) == "d" ==> r == v.(x := Speed)
    ensures viewerReady && ToLower(key) == "a" ==> r == v.(x := -Speed)
    ensures viewerReady && ToLower(key) == "w" ==> r == v.(z := 2.0 * Speed)
    ensures viewerReady && ToLower(key) == "s" ==> r == v.(z := -2.0 * Speed)
    ensures viewerReady && ToLower(key) == "r" ==> r == v.(y := Speed)
    ensures viewerReady && ToLower(key) == "f" ==> r == v.(y := -Speed)
  {
    if !viewerReady then v
    else
      var name := ToLower(key);
      var v1 := if name == "d" then v.(x := Speed) else v;
      var v2 := if name == "a" then v1.(x := -Speed) else v1;
      var v3 := if name == "w" then v2.(z := Speed * 2.0) else v2;
      var v4 := if name == "s" then v3.(z := -Speed * 2.0) else v3;
      var v5 := if name == "r" then v4.(y := Speed) else v4;
      if name == "f" then v5.(y := -Speed) else v5
  }

  /** `keyup`: the six conditional resets in source order. */
  function OnKeyUp(viewerReady: bool, key: string, v: Velocity): (r: Velocity)
    ensures !viewerReady || ToLower(key) !in {"d", "a", "r", "f", "w", "s"} ==> r == v
    ensures viewerReady && ToLower(key) in {"d", "a"} ==> r == v.(x := 0.0)
    ensures viewerReady && ToLower(key) in {"r", "f"} ==> r == v.(y := 0.0)
    ensures viewerReady && ToLower(key) in {"w", "s"} ==> r == v.(z := 0.0)
  {
    if !viewerReady then v
    else
      var name := ToLower(key);
      var v1 := if name == "d" then v.(x := 0.0) else v;
      var v2 := if name == "a" then v1.(x := 0.0) else v1;
      var v3 := if name == "w" then v2.(z := 0.0) else v2;
      var v4 := if name == "s" then v3.(z := 0.0) else v3;
      var v5 := if name == "r" then v4.(y := 0.0) else v4;
      if name == "f" then v5.(y := 0.0) else v5
  }

  /** A control key changes only its own axis, on press and on release; releasing it
      stops that axis whatever the press did. */
  lemma KeyTouchesOneAxis(key: string, v: Velocity, other: Axis)
    requires ToLower(key) in {"d", "a", "r", "f", "w", "s"}
    requires other != AxisOf(ToLower(key))
    ensures Along(OnKeyPress(true, key, v), other) == Along(v, other)
    ensures Along(OnKeyUp(true, key, v), other) == Along(v, other)
    ensures Along(OnKeyUp(true, key, OnKeyPress(true, key, v)), AxisOf(ToLower(key))) == 0.0
  {
  }

  /** Keys are matched without regard to case. */
  lemma CaseInsensitive(key1: string, key2: string, ready: bool, v: Velocity)
    requires ToLower(key1) == ToLower(key2)
    ensures OnKeyPress(ready, key1, v) == OnKeyPress(ready, key2, v)
    ensures OnKeyUp(ready, key1, v) == OnKeyUp(ready, key2, v)
  {
  }

  /** The raw key values a handler acts on: each control letter in either case, and no
      other string. */
  lemma ControlKeyNames(key: string)
    ensures ToLower(key) == "d" <==> key == "d" || key == "D"
    ensures ToLower(key) == "a" <==> key == "a" || key == "A"
    ensures ToLower(key) == "w" <==> key == "w" || key == "W"
    ensures ToLower(key) == "s" <==> key == "s" || key == "S"
    ensures ToLower(key) == "r" <==> key == "r" || key == "R"
    ensures ToLower(key) == "f" <==> key == "f" || key == "F"
  {
    ToLowerLetter(key, 'd');
    ToLowerLetter(key, 'a');
    ToLowerLetter(key, 'w');
    ToLowerLetter(key, 's');
    ToLowerLetter(key, 'r');
    ToLowerLetter(key, 'f');
  }

  /** `n` copies of the keypress handler run on one event. */
  function PressTimes(n: nat, ready: bool, key: string, v: Velocity): Velocity {
    if n == 0 then v else OnKeyPress(ready, key, PressTimes(n - 1, ready, key, v))
  }

  /** `n` copies of the keyup handler run on one event. */
  function ReleaseTimes(n: nat, ready: bool, key: string, v: Velocity): Velocity {
    if n == 0 then v else OnKeyUp(ready, key, ReleaseTimes(n - 1, ready, key, v))
  }

  /** The listeners are registered again on every clock tick, so one key event may run
      `n` copies of the same handler. Both handlers are idempotent, so `n >= 1` copies act
      like one. */
  lemma {:induction false} DuplicateListenersAgree(n: nat, ready: bool, key: string, v: Velocity)
    requires n >= 1
    ensures PressTimes(n, ready, key, v) == OnKeyPress(ready, key, v)
    ensures ReleaseTimes(n, ready, key, v) == OnKeyUp(ready, key, v)
  {
    if n > 1 {
      DuplicateListenersAgree(n - 1, ready, key, v);
    }
  }
}

=== FILE: map_viewer.dfy ===
/** The Cesium viewer's reconciliation of the unit list: the camera centre chosen by the
    selected index, and the find-or-create pass that gives every unit a model, a box and a
    label entity exactly once. Each React effect body is one atomic step over explicit
    inputs. */
module MapViewer {
  import opened Wrappers
  import opened Js
  import opened UnitModel
  import opened UnitColors

  /** `Cesium.Cartesian3.fromDegrees(longitude, latitude, height)`, left uninterpreted: the
      model compares the arguments, not the points Cesium would compute from them. */
  datatype Cartesian = FromDegrees(longitude: Number, latitude: Number, height: Number)

  /** `x || 0.0` on a coordinate. */
  function OrZero(n: Number): Number {
    if NumberTruthy(n) then n else Finite(0.0)
  }

  /** `unit?.latLongAlt?.longitude || 0.0`. */
  function Longitude(u: Unit): Number {
    match u.latLongAlt
    case Some(p) => OrZero(p.longitude)
    case None => Finite(0.0)
  }

  /** `unit?.latLongAlt?.latitude || 0.0`. */
  function Latitude(u: Unit): Number {
    match u.latLongAlt
    case Some(p) => OrZero(p.latitude)
    case None => Finite(0.0)
  }

  /** `unit?.latLongAlt?.height || 0.0`. */
  function Height(u: Unit): Number {
    match u.latLongAlt
    case Some(p) => OrZero(p.height)
    case None => Finite(0.0)
  }

  /** Where a unit is drawn and centred on. */
  function Position(u: Unit): Cartesian {
    FromDegrees(Longitude(u), Latitude(u), Height(u))
  }

  /** A stored coordinate is used when truthy; a missing position, or a coordinate that is
      0 or NaN, becomes 0.0. So no position coordinate is ever NaN. */
  lemma PositionDefaults(u: Unit)
    ensures u.latLongAlt.None? ==> Position(u) == FromDegrees(Finite(0.0), Finite(0.0), Finite(0.0))
    ensures u.latLongAlt.Some? && NumberTruthy(u.latLongAlt.value.longitude) ==>
              Position(u).longitude == u.latLongAlt.value.longitude
    ensures u.latLongAlt.Some? && NumberTruthy(u.latLongAlt.value.latitude) ==>
              Position(u).latitude == u.latLongAlt.value.latitude
    ensures u.latLongAlt.Some? && NumberTruthy(u.latLongAlt.value.height) ==>
              Position(u).height == u.latLongAlt.value.height
    ensures u.latLongAlt.Some? && !NumberTruthy(u.latLongAlt.value.longitude) ==>
              Position(u).longitude == Finite(0.0)
    ensures u.latLongAlt.Some? && !NumberTruthy(u.latLongAlt.value.latitude) ==>
              Position(u).latitude == Finite(0.0)
    ensures u.latLongAlt.Some? && !NumberTruthy(u.latLongAlt.value.height) ==>
              Position(u).height == Finite(0.0)
    ensures !Position(u).longitude.NaN? && !Position(u).latitude.NaN? && !Position(u).height.NaN?
  {
  }

  // ---------------------------------------------------------------------------
  // Selection
  // ---------------------------------------------------------------------------

  /** `idx < length` for a possibly undefined number: `undefined` and NaN compare false. */
  predicate LessThan(idx: Option<Number>, length: nat) {
    match idx
    case None => false
    case Some(n) =>
      (match n
       case NaN => false
       case PosInfinity => false
       case NegInfinity => true
       case Finite(r) => r < length as real)
  }

  /** `array[idx]`: an element only for an integral index within bounds. */
  function ElementAt<T>(a: seq<T>, idx: Option<Number>): (r: Option<T>)
    ensures r.Some? ==> idx.Some? && idx.value.Finite? && 0 <= idx.value.r.Floor < |a|
                        && IsIndex(idx, idx.value.r.Floor) && r.value == a[idx.value.r.Floor]
    ensures r.None? ==> forall i :: 0 <= i < |a| ==> !IsIndex(idx, i)
  {
    match idx
    case Some(Finite(r)) =>
      if r == r.Floor as real && 0 <= r.Floor < |a| then Some(a[r.Floor]) else None
    case _ => None
  }

  /** `idx` is the array index `i`. */
  predicate IsIndex(idx: Option<Number>, i: int) {
    idx == Some(Finite(i as real))
  }

  /** The selection effect: the centre moves to the selected unit exactly when the list is
      non-empty and the index is an integer in range; otherwise it stays where it was. */
  function OnSelectionChanged(units: seq<Unit>, idx: Option<Number>, center: Cartesian): (c: Cartesian)
    ensures forall i :: 0 <= i < |units| && IsIndex(idx, i) ==> c == Position(units[i])
    ensures (forall i :: 0 <= i < |units| ==> !IsIndex(idx, i)) ==> c == center
  {
    if |units| > 0 && LessThan(idx, |units|) then
      match ElementAt(units, idx)
      case Some(u) => Position(u)
      case None => center
    else center
  }

  /** A negative, fractional, NaN or missing index never moves the centre. */
  lemma NoRecentreOutOfRange(units: seq<Unit>, idx: Option<Number>, center: Cartesian)
    requires idx.None? || !idx.value.Finite? || idx.value.r < 0.0
             || idx.value.r >= |units| as real || idx.value.r != idx.value.r.Floor as real
    ensures OnSelectionChanged(units, idx, center) == center
  {
  }

  // ---------------------------------------------------------------------------
  // Entities
  // ---------------------------------------------------------------------------

  /** What the viewer draws for a unit. */
  datatype EntityKind =
    | ModelPoint(uri: string, pointColor: CesiumColor)
    | BoxEntity(material: CesiumColor)
    | LabelEntity(text: string)

  datatype Entity = Entity(position: Cartesian, kind: EntityKind)

  const ModelUri: string := "models/firefighter/scene.gltf"

  /** The firefighter model with a point in the unit's colour, at the unit's position. */
  function ModelEntityOf(u: Unit): Entity {
    Entity(Position(u), ModelPoint(ModelUri, CesiumMaterial(u.color)))
  }

  /** The translucent box, 0.8 above the unit. */
  function BoxEntityOf(u: Unit): Entity {
    Entity(FromDegrees(Longitude(u), Latitude(u), AddReal(Height(u), 0.8)), BoxEntity(CesiumMaterial(u.color)))
  }

  /** The label `Unit <id>`, 2.0 above the unit. */
  function LabelEntityOf(u: Unit): Entity {
    Entity(FromDegrees(Longitude(u), Latitude(u), AddReal(Height(u), 2.0)), LabelEntity("Unit " + u.id))
  }

  /** The box and the label stand 0.8 and 2.0 above the unit's (defaulted) height, at its
      longitude and latitude, and the label reads `Unit <id>`. */
  lemma EntityPlacement(u: Unit)
    requires Height(u).Finite?
    ensures BoxEntityOf(u).position.height == Finite(Height(u).r + 0.8)
    ensures LabelEntityOf(u).position.height == Finite(Height(u).r + 2.0)
    ensures BoxEntityOf(u).position.longitude == LabelEntityOf(u).position.longitude == Position(u).longitude
    ensures BoxEntityOf(u).position.latitude == LabelEntityOf(u).position.latitude == Position(u).latitude
    ensures LabelEntityOf(u).kind.text[..5] == "Unit " && LabelEntityOf(u).kind.text[5..] == u.id
  {
  }

  /** A unit after one loop iteration, and the viewer's entities. */
  datatype Step = Step(unit: Unit, entities: seq<Entity>)

  /** The unit carries the same data apart from its handles. */
  predicate SameData(u: Unit, v: Unit) {
    v == u.WithHandles(v.modelHandle, v.boxHandle, v.labelHandle)
  }

  /** `h` is present and refers to the entity `e`. */
  predicate RefersTo(h: Option<Handle>, e: Entity, entities: seq<Entity>) {
    h.Some? && h.value.entity < |entities| && entities[h.value.entity] == e
  }

  /** `h` refers to the entity `e`, which sits at an index in `lo..hi`. */
  predicate RefersWithin(h: Option<Handle>, e: Entity, lo: nat, hi: nat, entities: seq<Entity>) {
    RefersTo(h, e, entities) && lo <= h.value.entity < hi
  }

  /** `k` is the index of one of the handles `v` gained over `u`. */
  predicate NewHandleAt(u: Unit, v: Unit, k: nat) {
    || (u.modelHandle.None? && v.modelHandle == Some(Handle(k)))
    || (u.boxHandle.None? && v.boxHandle == Some(Handle(k)))
    || (u.labelHandle.None? && v.labelHandle == Some(Handle(k)))
  }

  /** Handles `u` had are kept; each handle it lacked now refers to an entity built from `u`
      among the entities `lo..hi` appended for it, and each of those entities is referred to
      by one of the new handles. */
  predicate FilledFrom(u: Unit, v: Unit, lo: nat, hi: nat, entities: seq<Entity>) {
    && (u.modelHandle.Some? ==> v.modelHandle == u.modelHandle)
    && (u.boxHandle.Some? ==> v.boxHandle == u.boxHandle)
    && (u.labelHandle.Some? ==> v.labelHandle == u.labelHandle)
    && (u.modelHandle.None? ==> RefersWithin(v.modelHandle, ModelEntityOf(u), lo, hi, entities))
    && (u.boxHandle.None? ==> RefersWithin(v.boxHandle, BoxEntityOf(u), lo, hi, entities))
    && (u.labelHandle.None? ==> RefersWithin(v.labelHandle, LabelEntityOf(u), lo, hi, entities))
    && (forall k: nat :: lo <= k < hi ==> NewHandleAt(u, v, k))
  }

  /** Add `e` to the viewer unless `h` is already present. */
  function FindOrCreate(h: Option<Handle>, e: Entity, entities: seq<Entity>): (Option<Handle>, seq<Entity>) {
    if h.Some? then (h, entities) else (Some(Handle(|entities|)), entities + [e])
  }

  /** The loop body for one unit: create the model, the box and the label, each only if its
      handle is missing. Exactly the missing entities are appended, existing handles are
      never replaced, and afterwards the unit has all three. */
  function EnsureHandles(u: Unit, entities: seq<Entity>): (r: Step)
    ensures r.unit.HasAllHandles() && SameData(u, r.unit)
    ensures |r.entities| == |entities| + u.MissingHandles() && r.entities[..|entities|] == entities
    ensures FilledFrom(u, r.unit, |entities|, |r.entities|, r.entities)
  {
    var (m, e1) := FindOrCreate(u.modelHandle, ModelEntityOf(u), entities);
    var (b, e2) := FindOrCreate(u.boxHandle, BoxEntityOf(u), e1);
    var (l, e3) := FindOrCreate(u.labelHandle, LabelEntityOf(u), e2);
    assert e3[..|e1|] == e1 && e2[..|e1|] == e1;
    Step(u.WithHandles(m, b, l), e3)
  }

  /** The number of handles missing across a unit list. */
  function TotalMissing(units: seq<Unit>): (n: nat)
    ensures n <= 3 * |units|
  {
    if units == [] then 0 else TotalMissing(units[..|units| - 1]) + units[|units| - 1].MissingHandles()
  }

  /** The units after the loop, and the viewer's entities. */
  datatype Reconciled = Reconciled(units: seq<Unit>, entities: seq<Entity>)

  /** Unit `i` of the loop's output has all three handles and its data unchanged, and its
      new handles refer to entities built from it among those appended for it: the entities
      after the ones appended for the units before it. */
  predicate UnitFilled(units: seq<Unit>, entities: seq<Entity>, r: Reconciled, i: nat)
    requires i < |units| && |r.units| == |units|
  {
    && r.units[i].HasAllHandles()
    && SameData(units[i], r.units[i])
    && FilledFrom(units[i], r.units[i], |entities| + TotalMissing(units[..i]),
                  |entities| + TotalMissing(units[..i + 1]), r.entities)
  }

  /** Appending entities keeps every handle's referent. */
  lemma FilledFromExtend(u: Unit, v: Unit, lo: nat, hi: nat, entities: seq<Entity>, more: seq<Entity>)
    requires FilledFrom(u, v, lo, hi, entities)
    requires |entities| <= |more| && more[..|entities|] == entities
    ensures FilledFrom(u, v, lo, hi, more)
  {
    assert forall k :: 0 <= k < |entities| ==> more[k] == entities[k];
  }

  /** The per-unit loop over the whole list, in order. Every unit comes out with all three
      handles and its data unchanged, handles it had are kept, one entity is appended per
      missing handle and none otherwise. Units are values here: a list that holds the same
      unit object twice is treated as two units. */
  function ReconcileAll(units: seq<Unit>, entities: seq<Entity>): (r: Reconciled)
    ensures |r.units| == |units|
    ensures |r.entities| == |entities| + TotalMissing(units)
    ensures r.entities[..|entities|] == entities
    ensures forall i :: 0 <= i < |units| ==> UnitFilled(units, entities, r, i)
    decreases |units|
  {
    if units == [] then Reconciled([], entities)
    else
      var prev := ReconcileAll(units[..|units| - 1], entities);
      var step := EnsureHandles(units[|units| - 1], prev.entities);
      var r := Reconciled(prev.units + [step.unit], step.entities);
      var n := |units| - 1;
      assert units[..n + 1] == units;
      forall i | 0 <= i < |units|
        ensures UnitFilled(units, entities, r, i)
      {
        if i < n {
          assert UnitFilled(units[..n], entities, prev, i);
          assert units[i] == units[..n][i];
          assert units[..n][..i] == units[..i] && units[..n][..i + 1] == units[..i + 1];
          FilledFromExtend(units[i], prev.units[i], |entities| + TotalMissing(units[..i]),
                           |entities| + TotalMissing(units[..i + 1]), prev.entities, r.entities);
        } else {
          assert units[..n] == units[..i];
        }
      }
      r
  }

  /** A list whose units all have their handles passes through the loop untouched. */
  lemma {:induction false} ReconcileComplete(units: seq<Unit>, entities: seq<Entity>)
    requires forall i :: 0 <= i < |units| ==> units[i].HasAllHandles()
    ensures ReconcileAll(units, entities) == Reconciled(units, entities)
    decreases |units|
  {
    if units != [] {
      ReconcileComplete(units[..|units| - 1], entities);
      assert units[..|units| - 1] + [units[|units| - 1]] == units;
    }
  }

  /** Running the loop a second time over its own output adds no entity and changes no
      unit. */
  lemma ReconcileIdempotent(units: seq<Unit>, entities: seq<Entity>)
    ensures var r := ReconcileAll(units, entities);
            ReconcileAll(r.units, r.entities) == r
  {
    var r := ReconcileAll(units, entities);
    forall i | 0 <= i < |r.units|
      ensures r.units[i].HasAllHandles()
    {
      assert UnitFilled(units, entities, r, i);
    }
    ReconcileComplete(r.units, r.entities);
  }

  /** A viewer's entity collection. */
  datatype Viewer = Viewer(entities: seq<Entity>)

  /** `selectedUnitIdx === -1 || selectedUnitIdx === undefined`. */
  predicate FollowsLast(idx: Option<Number>) {
    idx.None? || idx == Some(Finite(-1.0))
  }

  /** The units effect. Without a viewer it creates an empty one and changes nothing else.
      With a viewer it runs the find-or-create loop over the units, and, when no unit is
      selected, leaves the centre on the last unit. */
  method OnUnitsChanged(viewer: Option<Viewer>, units: seq<Unit>, idx: Option<Number>, center: Cartesian)
    returns (newViewer: Viewer, newUnits: seq<Unit>, newCenter: Cartesian)
    ensures viewer.None? ==> newViewer == Viewer([]) && newUnits == units && newCenter == center
    ensures viewer.Some? ==> newUnits == ReconcileAll(units, viewer.value.entities).units
    ensures viewer.Some? ==> newViewer.entities == ReconcileAll(units, viewer.value.entities).entities
    ensures viewer.Some? && FollowsLast(idx) && |units| > 0 ==> newCenter == Position(units[|units| - 1])
    ensures viewer.None? || !FollowsLast(idx) || |units| == 0 ==> newCenter == center
  {
    if viewer.None? {
      return Viewer([]), units, center;
    }
    var entities := viewer.value.entities;
    var done: seq<Unit> := [];
    newCenter := center;
    var i := 0;
    while i < |units|
      invariant 0 <= i <= |units|
      invariant Reconciled(done, entities) == ReconcileAll(units[..i], viewer.value.entities)
      invariant newCenter == if FollowsLast(idx) && i > 0 then Position(units[i - 1]) else center
    {
      var u := units[i];
      if FollowsLast(idx) {
        newCenter := Position(u);
      }
      var step := EnsureHandles(u, entities);
      done := done + [step.unit];
      entities := step.entities;
      assert units[..i + 1][..i] == units[..i];
      i := i + 1;
    }
    assert units[..i] == units;
    return Viewer(entities), done, newCenter;
  }
}

=== FILE: unit_colors.dfy ===
/** The two renderings of a unit's colour tag: a half-transparent Cesium colour for the 3D
    entities, and an opaque CSS `rgba(...)` string for the biometrics panel swatch. */
module UnitColors {
  import opened Wrappers
  import opened Js
  import opened UnitModel

  /** The predefined `Cesium.Color` constants the viewer uses. */
  datatype CesiumBase = RED | BLUE | GREEN | PURPLE | ORANGE | GREY | WHITE | BLACK
  {
    /** `Cesium.Color.X.withAlpha(alpha)`. */
    function WithAlpha(alpha: real): CesiumColor {
      CesiumColor(this, alpha)
    }
  }

  /** A Cesium colour: a predefined constant with an alpha. */
  datatype CesiumColor = CesiumColor(base: CesiumBase, alpha: real)

  /** The Cesium constant named like a colour tag; the default tag has none. */
  function NamedBase(c: UnitColor): CesiumBase
    requires c != Default
  {
    match c
    case Red => RED
    case Green => GREEN
    case Blue => BLUE
    case Purple => PURPLE
    case Orange => ORANGE
  }

  /** `getCesiumMaterialFromUnitColor`: the like-named Cesium colour for the five named tags,
      grey for `Default` and for every number that names no member, always at alpha 0.5. */
  function CesiumMaterial(tag: Number): (r: CesiumColor)
    ensures r.alpha == 0.5
    ensures ColorOf(tag).Some? && ColorOf(tag) != Some(Default) ==> r.base == NamedBase(ColorOf(tag).value)
    ensures r.base == GREY <==> ColorOf(tag).None? || ColorOf(tag) == Some(Default)
  {
    match ColorOf(tag)
    case Some(Red) => RED.WithAlpha(0.5)
    case Some(Blue) => BLUE.WithAlpha(0.5)
    case Some(Green) => GREEN.WithAlpha(0.5)
    case Some(Purple) => PURPLE.WithAlpha(0.5)
    case Some(Orange) => ORANGE.WithAlpha(0.5)
    case _ => GREY.WithAlpha(0.5)
  }

  /** Different members give different Cesium colours. */
  lemma CesiumMaterialInjective(c: UnitColor, d: UnitColor)
    ensures CesiumMaterial(Tag(c)) == CesiumMaterial(Tag(d)) <==> c == d
  {
  }

  /** A number that names no member is drawn like `Default`, in both renderings. */
  lemma UnlistedTagIsDefault(tag: Number)
    requires ColorOf(tag).None?
    ensures CesiumMaterial(tag) == CesiumMaterial(Tag(Default))
    ensures UnitColorToRgba(tag) == UnitColorToRgba(Tag(Default))
  {
  }

  /** Opaque white, the swatch of the default tag. */
  const White: string := "rgba(255.0, 255.0, 255.0, 1.0)"

  /** `unitColorToRgba`. Every string it returns is opaque: it ends in alpha `1.0`. `Default`
      and every number that names no member get white. */
  function UnitColorToRgba(tag: Number): (r: string)
    ensures |r| > 6 && r[..5] == "rgba(" && r[|r| - 6..] == ", 1.0)"
    ensures r == White <==> ColorOf(tag).None? || ColorOf(tag) == Some(Default)
  {
    match ColorOf(tag)
    case Some(Red) => "rgba(255.0, 0.0, 0.0, 1.0)"
    case Some(Blue) => "rgba(0.0, 0.0, 255.0, 1.0)"
    case Some(Green) => "rgba(0.0, 255.0, 0.0, 1.0)"
    case Some(Purple) => "rgba(165.0, 55.0, 253.0, 1.0)"
    case Some(Orange) => "rgba(241.0, 90.0, 34.0, 1.0)"
    case _ => White
  }

  /** The six members give six different swatches; in particular no named member is white. */
  lemma RgbaInjective(c: UnitColor, d: UnitColor)
    ensures UnitColorToRgba(Tag(c)) == UnitColorToRgba(Tag(d)) <==> c == d
  {
    if c != d {
      var r, s := UnitColorToRgba(Tag(c)), UnitColorToRgba(Tag(d));
      // The six strings differ in length, in their sixth or in their eleventh character.
      assert |r| != |s| || r[5] != s[5] || r[10] != s[10];
    }
  }
}

=== FILE: unit_model.dfy ===
/** The record shapes of the viewer: a unit with its colour tag, optional biometrics,
    optional position and the three optional render handles. */
module UnitModel {
  import opened Wrappers
  import opened Js

  /** The colour tag of a unit. TypeScript numbers the members from 1 in declaration order. */
  datatype UnitColor = Red | Green | Blue | Purple | Orange | Default

  /** The numeric value TypeScript gives each member. */
  function EnumValue(c: UnitColor): (n: int)
    ensures 1 <= n <= 6
    ensures FromEnumValue(n) == Some(c)
  {
    match c
    case Red => 1
    case Green => 2
    case Blue => 3
    case Purple => 4
    case Orange => 5
    case Default => 6
  }

  /** The member with a numeric value, if any (the reverse mapping of the enum). */
  function FromEnumValue(n: int): (r: Option<UnitColor>)
    ensures r.Some? <==> 1 <= n <= 6
  {
    if n == 1 then Some(Red)
    else if n == 2 then Some(Green)
    else if n == 3 then Some(Blue)
    else if n == 4 then Some(Purple)
    else if n == 5 then Some(Orange)
    else if n == 6 then Some(Default)
    else None
  }

  /** No two members share a numeric value, and every value 1..6 names a member. */
  lemma EnumValuesDistinct(c: UnitColor, d: UnitColor)
    ensures EnumValue(c) == EnumValue(d) <==> c == d
    ensures forall n :: 1 <= n <= 6 ==> FromEnumValue(n).Some? && EnumValue(FromEnumValue(n).value) == n
  {
  }

  /** The number a member stands for at run time. */
  function Tag(c: UnitColor): Number {
    Finite(EnumValue(c) as real)
  }

  /** The member a run-time tag value is strictly equal to, if any. A TypeScript numeric
      enum type admits every number, so a tag may name no member at all. */
  function ColorOf(tag: Number): (r: Option<UnitColor>)
    ensures forall c :: r == Some(c) <==> tag == Tag(c)
  {
    match tag
    case Finite(x) => if x == x.Floor as real then FromEnumValue(x.Floor) else None
    case _ => None
  }

  /** Biometric readings of a unit. */
  datatype Biometrics = Biometrics(unitName: string, heartRate: Number, bloodO2: Number, bodyTemp: Number)

  /** A geodetic position of a unit. */
  datatype LatLongAlt = LatLongAlt(latitude: Number, longitude: Number, height: Number)

  /** An opaque reference to an entity the renderer created: the entity's index in the
      viewer's entity collection. The reconciliation logic only tests it for presence. */
  datatype Handle = Handle(entity: nat)

  /** A unit as the viewer holds it. `id` and `color` are always present; everything else
      may be missing. `color` is the numeric tag as it is at run time. */
  datatype Unit = Unit(
    id: string,
    color: Number,
    biometrics: Option<Biometrics>,
    latLongAlt: Option<LatLongAlt>,
    modelHandle: Option<Handle>,
    boxHandle: Option<Handle>,
    labelHandle: Option<Handle>)
  {
    /** All three render handles are present. */
    predicate HasAllHandles() {
      modelHandle.Some? && boxHandle.Some? && labelHandle.Some?
    }

    /** How many of the three render handles are missing. */
    function MissingHandles(): (n: nat)
      ensures n <= 3
      ensures n == 0 <==> HasAllHandles()
    {
      (if modelHandle.None? then 1 else 0)
      + (if boxHandle.None? then 1 else 0)
      + (if labelHandle.None? then 1 else 0)
    }

    /** The same unit with its render handles replaced. */
    function WithHandles(model: Option<Handle>, box: Option<Handle>, caption: Option<Handle>): Unit {
      this.(modelHandle := model, boxHandle := box, labelHandle := caption)
    }
  }
}

=== FILE: wrappers.dfy ===
/** The optional value used throughout the model for JavaScript's `undefined`-able fields. */
module Wrappers {
  datatype Option<+T> = None | Some(value: T)
}
